=== FILE: README.md ===
# icheck: a verified model of the connectivity agent's core

`internet-checker.py` is a small agent that a crontab entry runs every few
minutes. Each `check` run probes connectivity and records an event only
when the state changes (up to down, or down to up). A recovery event embeds
the outage event it ends. `init` seeds the event log with the state at
install time and installs the agent's own crontab line. `cron` replaces or
removes that line, leaving every other line of the user's crontab alone.

This project models that core in Dafny and proves its properties:

- `events.dfy` (module `Events`) covers the event store and the state
  transition engine. An `Event` is a datatype with an optional nested
  `prevEvent`. `Transition` is the decision one `check` run makes. `Apply`
  and `Replay` give the store after one run and after a sequence of runs.
  The class `EventStore` holds `events` and `lastEvent` and updates them in
  place, as `check` does on the loaded JSON dictionary. Its `Check` method
  returns `NoOp` or `Applied` where the source calls `exit(0)` or writes the
  file.
- `cron.dfy` (module `Cron`) covers the scheduler job manager. The class
  `CronTable` holds the crontab as a sequence of lines. `JobExists`,
  `RemoveJob` and `SetJob` work like `_job_exist`, `remove_job` and
  `set_job`. `RemoveJob` follows the source's loop exactly: the loop removes
  items from the list while iterating over it. As a result, a marked line
  that comes directly after a removed marked line is skipped
  (`RemoveJobSkipsAdjacent`). Full removal is proved only for tables with
  at most one marked line, and `set_job` never creates a second one. From
  a table that already holds two adjacent marked lines (equal or not), the skip lets a
  stale job line survive `set_job`: installing twice then leaves two job
  lines (`SetJobTwiceKeepsStaleLine`). This is why the install-twice and
  install-then-remove lemmas assume at most one marked line to start with.
- `agent.dfy` (module `Agent`) covers `init`. It does nothing when the data
  file exists. Otherwise it seeds the store and installs the job.
- `cli.dfy` (module `Cli`) covers `get_arg` and `get_version`.
- `text.dfy` (module `Text`) defines the Python string built-ins the code
  uses: `in` on strings, `str` of an int and `str.join`. `wrappers.dfy`
  defines `Option`.

The two invariants of the event store are:

- `Consistent`: the log is non-empty and `lastEvent` is its last element.
- `WellLinked`: the seed event carries no link, consecutive events differ
  in state, and an event carries `prevEvent` exactly when the event before
  it is an outage. In that case `prevEvent` equals that earlier event.

Both hold after the bootstrap, and every `check` run keeps them.

## Model

| member | source | states |
|---|---|---|
| `Text.Contains` | internet-checker.py:73 | Python's `sub in s`: true exactly when `sub` occurs at some index of `s` |
| `Text.NatToString` | internet-checker.py:87 | `str(t)` for the period: a non-empty run of decimal digits with no leading zero |
| `Text.ParseNatToString` | internet-checker.py:87 | the rendered period reads back as the same number |
| `Text.Join` | internet-checker.py:35 | `sep.join(parts)`: empty for no parts, otherwise the parts' lengths plus one separator between each pair |
| `Text.JoinSnoc` | internet-checker.py:35 | joining one more part gives the earlier join, then the separator, then that part, so the result is the parts in order with the separator between each pair |
| `Cli.IndexOf` | internet-checker.py:52 | `list.index(x)` gives the first position holding `x`: `x` does not occur before it |
| `Cli.GetArg` | internet-checker.py:49-57 | None when the flag is absent or is the last argument; otherwise the argument right after the flag's first occurrence |
| `Cli.GetVersion` | internet-checker.py:34-35 | the version is the three version numbers joined by dots, "0.1.0" |
| `Events.SeedEvent` | internet-checker.py:183-187 | the seed event records the probe's state, date and time, and has no `prev_event` |
| `Events.Transition` | internet-checker.py:219-230 | no event exactly when the observation equals the last state (debounce). Otherwise the new event has the observed state and the probe's time. It has `prev_event` exactly when the last state was down, and then that link is the last event. Only recoveries carry a link |
| `Events.Apply` | internet-checker.py:219-233 | the store after one `check` run: unchanged, or the old log plus one new event that is also `last_event`. In both cases the last state is the observed one |
| `Events.Replay` | internet-checker.py:212-234 | the store after a sequence of `check` runs: the old log is a prefix of the new one, and the last state is the last observation |
| `Events.SeedInvariants` | internet-checker.py:178-190 | the bootstrap store (`SeedSnapshot`, the data file `init` builds) has one event that is both `events[0]` and `last_event`, and both invariants hold |
| `Events.ApplyKeepsInvariants` | internet-checker.py:219-233 | a run with an unchanged state leaves the store equal to what it was. Otherwise it appends exactly one event with the observed state, leaves the earlier events untouched, and keeps both invariants |
| `Events.ReplayKeepsInvariants` | internet-checker.py:212-234 | over any sequence of runs, the log is only appended to and both invariants hold. The last state is the last observation |
| `Events.ReplayLength` | internet-checker.py:219-220 | the log grows by exactly the number of changes in the observed value, whatever repetitions come in between |
| `Events.LogFromSeed` | internet-checker.py:183-233 | from the bootstrap, the log after any runs starts with the seed event and has 1 + (number of changes) events. Both invariants hold |
| `Events.RecoveryLinks` | internet-checker.py:228-230 | in a well-linked log, outage events never carry a link. Every linked event is a recovery whose link is the outage event just before it, and every non-seed recovery carries that link |
| `Events.EndToEnd` | internet-checker.py:212-234 | bootstrap up, then runs with up, up, down, down, up: the log is seed, outage, and a recovery linking to that outage |
| `Events.EventStore.Seed` | internet-checker.py:183-190 | the new store holds the seed event as its only event and as `last_event`, with the probe's state. Both invariants hold |
| `Events.EventStore.Check` | internet-checker.py:212-234 | with an unchanged state, NoOp and nothing changes. Otherwise Applied: the new event is appended and becomes `last_event`, and its link is set exactly when the old state was down. It keeps the store invariants |
| `Cron.ClampPeriod` | internet-checker.py:81 | the installed period is always in 1..58. It is `time` when 0 < time < 59, and otherwise the default 5 (so 0, 59 and 100 all give 5) |
| `Cron.Command` | internet-checker.py:17 | the scheduled command is `python3 `, then the project path, then `/internet-checker.py check`: the agent's own script with the `check` subcommand |
| `Cron.JobLine` | internet-checker.py:87 | the job line is `*/` and the decimal period, then ` * * * * ` (every hour, day, month and weekday), then the command, then a space, the `#icheck` marker and a newline |
| `Cron.JobLineIsMarked` | internet-checker.py:87 | every line `set_job` writes contains the `#icheck` marker |
| `Cron.JobLinePeriod` | internet-checker.py:87 | the period written after the leading `*/` of the job line reads back as the period given |
| `Cron.RemoveFirst` | internet-checker.py:97 | `list.remove(x)` shortens the list by one and removes exactly one copy of `x` from its multiset of lines |
| `Cron.SweepFrom` | internet-checker.py:95-97 | the remove-while-iterating loop from position `i`: after a `list.remove` the iterator's index still advances by one. The loop only ever drops lines, so the result's lines are a sub-multiset of the input's |
| `Cron.RemoveJobResult` | internet-checker.py:91-99 | the table `remove_job` writes back: a sub-multiset of the old lines that keeps every foreign line, in order |
| `Cron.SetJobResult` | internet-checker.py:79-88 | the table `set_job` writes back: its last line is the job line for the clamped period, and the lines before it are a sub-multiset of the old lines |
| `Cron.RemoveFirstMarked` | internet-checker.py:95-97 | removing a marked line keeps every foreign line in order and lowers the marked count by one |
| `Cron.RemoveFirstAt` | internet-checker.py:97 | when no earlier line equals it, `list.remove` drops exactly the visited position |
| `Cron.SweepKeepsForeign` | internet-checker.py:91-99 | the removal loop as written keeps every foreign line, unchanged and in order, on any table |
| `Cron.SweepNoJob` | internet-checker.py:91-99 | on a table without a marked line the removal loop changes nothing |
| `Cron.SweepAtMostOne` | internet-checker.py:91-99 | on a table with at most one marked line, the removal loop leaves exactly the foreign lines |
| `Cron.RemoveJobSpec` | internet-checker.py:91-99 | `remove_job` keeps every foreign line in order. It is a no-op without a marked line. With at most one marked line it leaves exactly the foreign lines and no marked line |
| `Cron.RemoveJobSkipsAdjacent` | internet-checker.py:95-97 | of two adjacent marked lines, equal or not, `remove_job` removes only the first, so a marked line remains |
| `Cron.RemoveJobSkipsSecondJobLine` | internet-checker.py:95-97 | two job lines of the agent with periods 5 and 10, in a row: `remove_job` leaves only the one with period 10, whose period field reads back as 10 |
| `Cron.SetJobOnAdjacentPair` | internet-checker.py:83-88 | `set_job` on two adjacent marked lines, equal or not, removes only the first and appends the new job line after the second |
| `Cron.SetJobOnMarkedThenLine` | internet-checker.py:83-88 | `set_job` on a marked line followed by one more line removes the marked line and appends the new job line |
| `Cron.SetJobTwiceKeepsStaleLine` | internet-checker.py:79-99 | from two adjacent marked lines, equal or not, installing twice leaves two job lines, one per period: the skip lets a stale job line survive |
| `Cron.SetJobSpec` | internet-checker.py:79-88 | `set_job` keeps every foreign line in order and ends with the job line for the clamped period. From a table with at most one marked line, the result is the foreign lines plus that line, with exactly one marked line |
| `Cron.SetJobTwice` | internet-checker.py:79-88 | calling `set_job` twice leaves the foreign lines plus one marked line, which has the second period |
| `Cron.SetJobThenRemove` | internet-checker.py:79-99 | `set_job` followed by `remove_job` gives back exactly the foreign lines |
| `Cron.CronTable.constructor` | internet-checker.py:17 | the table starts from the given lines, and its command runs the agent's `check` by its full path |
| `Cron.CronTable.JobExists` | internet-checker.py:70-76 | true exactly when some line contains the marker |
| `Cron.CronTable.RemoveJob` | internet-checker.py:91-99 | the table after the source's remove-while-iterating loop. Foreign lines are kept in order. It is a no-op without a marked line and removes a single marked line |
| `Cron.CronTable.SetJob` | internet-checker.py:79-88 | the table after `set_job`: the foreign lines are kept and the last line is the job line for the clamped period. From at most one marked line, exactly the foreign lines plus that line remain |
| `Agent.Init` | internet-checker.py:156-193 | NoOp, with the crontab untouched, when the data file exists. Otherwise a new store whose only event is the seed, which is also `last_event`, with the probed state, and the crontab as `set_job(interval)` leaves it |

## Left out

- `check_internet` (a TCP connect to 8.8.8.8:53) is a network probe. The
  observed state is a parameter (`Sample.observed`).
- `get_timestamp` and `get_datetime_obj` read the wall clock and parse
  dates. The date and time of a run are parameters (`Sample.date`,
  `Sample.time`). The split of the timestamp into date and time is not
  modelled.
- `read_json` and `write_json` (including the merge option), the
  existence checks and `os.makedirs` are file I/O. The store is an
  in-memory object. The data file's existence, which `init` tests, is the
  parameter `dataFileExists`.
- Running `check` before `init` is not modelled. There `read_json` returns
  an empty dictionary and the lookup of `last_event` raises a `KeyError`.
  The model's `Check` always runs on a loaded store.
- `_get_cronjobs` and `_write_jobs` run the `crontab` command through a
  subprocess and a temporary file. Both handle the lines as raw bytes. The
  crontab is the field `CronTable.jobs`, with lines as decoded strings. Concatenating the lines
  when they are written back is not modelled, so the model does not capture
  a last line without a trailing newline merging with the appended job.
- Cron.CronTable.RemoveJob, Cron.CronTable.SetJob: a crontab line is modelled
  as its decoded string, and the job line as a string rather than its UTF-8
  encoding (line 87). A line that is not valid UTF-8 makes `.decode()` at
  line 73 or line 96 raise `UnicodeDecodeError`. That aborts `set_job` and
  `remove_job` before `_write_jobs`, so the table is left as it was. This
  error path is not modelled: both methods always rewrite the table.
- The configuration dictionary that `init` builds and writes is never read
  back, so it is not modelled.
- `show_events`, `show_help`, the `print` in `check` and the command-line
  dispatch under `__main__` are printing and argument glue. This includes
  the `cron -u` path, which passes a string to `set_job`. The comparison at
  line 81 would then raise a `TypeError`.
- `exit(0)` is not modelled as termination. It becomes the returned status
  `NoOp`.
- Overlapping `check` runs and concurrent crontab edits happen outside the
  program and are not modelled.

=== FILE: agent.dfy ===
/**
 * The bootstrap run of the agent: seed the event store with the current
 * observation and install the recurring `check` job, once.
 */
module Agent {
  import opened Events
  import opened Cron

  /**
   * `init(interval)`: NoOp when the data file already exists; otherwise a
   * new store holding the seed event as both first and last event, after
   * the job for `interval` has been installed in the crontab.
   */
  method Init(dataFileExists: bool, crontab: CronTable, interval: int, probe: Sample)
    returns (status: Status, store: EventStore?)
    modifies crontab
    ensures status == NoOp <==> dataFileExists
    ensures dataFileExists ==> store == null && crontab.jobs == old(crontab.jobs)
    ensures !dataFileExists ==>
              store != null && fresh(store) && store.Valid() &&
              store.events == [SeedEvent(probe)] && store.lastEvent == store.events[0] &&
              store.lastEvent.state == probe.observed &&
              crontab.jobs == SetJobResult(old(crontab.jobs), interval, crontab.command)
  {
    if dataFileExists {
      return NoOp, null;
    }
    store := new EventStore.Seed(probe);
    crontab.SetJob(interval);
    status := Applied;
  }
}

=== FILE: cli.dfy ===
/**
 * Command-line helpers of the agent: looking up the value that follows a
 * flag in the argument list, and the version string.
 */
module Cli {
  import opened Wrappers
  import Text

  const VersionMajor: nat := 0
  const VersionMinor: nat := 1
  const VersionPatch: nat := 0

  /** Python's `list.index(x)`: the position of the first occurrence of `x`. */
  function IndexOf(s: seq<string>, x: string): (i: nat)
    requires x in s
    ensures i < |s| && s[i] == x && x !in s[..i]
    decreases |s|
  {
    if s[0] == x then 0
    else
      var j := IndexOf(s[1..], x);
      assert s[..j + 1] == [s[0]] + s[1..][..j];
      1 + j
  }

  /** `i` is the position of the first occurrence of `flag` in `args`. */
  predicate FirstAt(args: seq<string>, flag: string, i: int)
  {
    0 <= i < |args| && args[i] == flag && flag !in args[..i]
  }

  /** There is at most one first occurrence. */
  lemma FirstAtUnique(args: seq<string>, flag: string, i: int, j: int)
    requires FirstAt(args, flag, i) && FirstAt(args, flag, j)
    ensures i == j
  {
  }

  /**
   * The value following `flag` in `args`: the element after the first
   * occurrence of `flag`, or None when `flag` is absent or is the last
   * element.
   */
  function GetArg(args: seq<string>, flag: string): (r: Option<string>)
    ensures flag !in args ==> r == None
    ensures r.Some? <==> exists i :: FirstAt(args, flag, i) && i + 1 < |args|
    ensures forall i :: FirstAt(args, flag, i) ==>
              r == if i + 1 < |args| then Some(args[i + 1]) else None
  {
    if flag in args then
      var i := IndexOf(args, flag);
      assert FirstAt(args, flag, i);
      assert forall k :: FirstAt(args, flag, k) ==> k == i by {
        forall k | FirstAt(args, flag, k) ensures k == i {
          FirstAtUnique(args, flag, k, i);
        }
      }
      if i + 1 < |args| then Some(args[i + 1]) else None
    else None
  }

  /** The version string `major.minor.patch`. */
  function GetVersion(): (v: string)
    ensures v == "0.1.0"
  {
    var parts := [Text.NatToString(VersionMajor), Text.NatToString(VersionMinor),
                  Text.NatToString(VersionPatch)];
    assert parts == ["0", "1", "0"];
    assert Text.Join(".", parts[2..]) == "0";
    assert Text.Join(".", parts[1..]) == "1" + "." + "0";
    Text.Join(".", parts)
  }
}

=== FILE: cron.dfy ===
/**
 * The scheduler job manager: installs, detects and removes the agent's own
 * recurring line in the user's crontab. A line belongs to the agent when it
 * contains the marker comment; every other line is foreign and must
 * survive every rewrite.
 */
module Cron {
  import opened Wrappers
  import opened Text

  /** Period, in minutes, used when the requested one is out of range. */
  const DefaultTime := 5

  /** The comment that marks the agent's own line. */
  const Marker := "#icheck"

  /** The period `set_job` installs: `time` when 0 < time < 59, the default otherwise. */
  function ClampPeriod(time: int): (t: int)
    ensures 0 < t < 59
    ensures 0 < time < 59 ==> t == time
    ensures time <= 0 || 59 <= time ==> t == DefaultTime
  {
    if time < 59 && time > 0 then time else DefaultTime
  }

  /** The command a job line runs: the agent's `check` command by its full path. */
  function Command(projectPath: string): (r: string)
    ensures OccursAt(r, projectPath, |"python3 "|)
    ensures r[..|"python3 "|] == "python3 " && r[|r| - |" check"|..] == " check"
    ensures r[|"python3 "| + |projectPath|..] == "/internet-checker.py check"
  {
    "python3 " + projectPath + "/internet-checker.py check"
  }

  /** The agent's job line: every `t` minutes, run `command`, tagged with the marker. */
  function JobLine(t: nat, command: string): (r: string)
    ensures |r| > 2 + |NatToString(t)| + |Marker| + 2
    ensures r[..2] == "*/" && r[2..2 + |NatToString(t)|] == NatToString(t)
    ensures r[|r| - |Marker| - 2..] == " " + Marker + "\n"
    ensures r[2 + |NatToString(t)|..|r| - |Marker| - 2] == " * * * * " + command
  {
    var digits := NatToString(t);
    var tail := " " + Marker + "\n";
    var r := "*/" + digits + " * * * * " + command + tail;
    assert r[|r| - |tail|..] == tail;
    r
  }

  predicate IsMarked(line: string)
  {
    Contains(line, Marker)
  }

  /** Some line of the table is marked. */
  predicate HasJob(jobs: seq<string>)
  {
    exists j :: 0 <= j < |jobs| && IsMarked(jobs[j])
  }

  /** The foreign lines of a table, in order. */
  function Unmarked(jobs: seq<string>): seq<string>
    decreases |jobs|
  {
    if jobs == [] then []
    else (if IsMarked(jobs[0]) then [] else [jobs[0]]) + Unmarked(jobs[1..])
  }

  /** The number of marked lines of a table. */
  function CountMarked(jobs: seq<string>): nat
    decreases |jobs|
  {
    if jobs == [] then 0
    else (if IsMarked(jobs[0]) then 1 else 0) + CountMarked(jobs[1..])
  }

  /** Python's `list.remove(x)`: drops the first element equal to `x`. */
  function RemoveFirst(jobs: seq<string>, x: string): (r: seq<string>)
    requires x in jobs
    ensures |r| == |jobs| - 1
    ensures multiset(r) == multiset(jobs) - multiset{x}
    decreases |jobs|
  {
    assert jobs == [jobs[0]] + jobs[1..];
    if jobs[0] == x then jobs[1..] else [jobs[0]] + RemoveFirst(jobs[1..], x)
  }

  /**
   * `remove_job` as written: a `for` loop over the list that removes, while
   * iterating, the first line equal to each marked line it visits. The
   * iteration index still advances after a removal, so the line that moved
   * into the current position is not visited.
   */
  function SweepFrom(jobs: seq<string>, i: nat): (r: seq<string>)
    ensures multiset(r) <= multiset(jobs)
    decreases |jobs| - i
  {
    if i >= |jobs| then jobs
    else if IsMarked(jobs[i]) then SweepFrom(RemoveFirst(jobs, jobs[i]), i + 1)
    else SweepFrom(jobs, i + 1)
  }

  /** The table `remove_job` writes back. */
  function RemoveJobResult(jobs: seq<string>): (r: seq<string>)
    ensures multiset(r) <= multiset(jobs)
    ensures Unmarked(r) == Unmarked(jobs)
  {
    SweepKeepsForeign(jobs, 0);
    SweepFrom(jobs, 0)
  }

  /** The table `set_job(time)` writes back. */
  function SetJobResult(jobs: seq<string>, time: int, command: string): (r: seq<string>)
    ensures |r| > 0 && r[|r| - 1] == JobLine(ClampPeriod(time), command)
    ensures multiset(r[..|r| - 1]) <= multiset(jobs)
  {
    (if HasJob(jobs) then RemoveJobResult(jobs) else jobs) + [JobLine(ClampPeriod(time), command)]
  }

  // Lemmas about the marker, job lines and foreign lines

  /** Every line the agent writes carries the marker. */
  lemma JobLineIsMarked(t: nat, command: string)
    ensures IsMarked(JobLine(t, command))
  {
    var line := JobLine(t, command);
    var k := |line| - |Marker| - 1;
    assert line[k..k + |Marker|] == Marker;
    assert OccursAt(line, Marker, k);
  }

  /** The period field of a job line: the digits after its first two characters. */
  function ParsePeriod(line: string): Option<nat>
  {
    if |line| >= 2 && line[..2] == "*/" then
      var digits := DigitRun(line[2..]);
      if digits == [] then None else Some(ParseDigits(digits))
    else None
  }

  /** The longest prefix of `s` made of decimal digits. */
  function DigitRun(s: string): (d: string)
    ensures AllDigits(d) && |d| <= |s| && d == s[..|d|]
    decreases |s|
  {
    if s != [] && IsDigit(s[0]) then [s[0]] + DigitRun(s[1..]) else []
  }

  lemma {:induction false} DigitRunStopsAtSpace(d: string, rest: string)
    requires AllDigits(d)
    ensures DigitRun(d + " " + rest) == d
    decreases |d|
  {
    if d != [] {
      assert (d + " " + rest)[1..] == d[1..] + " " + rest;
      DigitRunStopsAtSpace(d[1..], rest);
    }
  }

  /** The period the agent writes into its job line reads back unchanged. */
  lemma JobLinePeriod(t: nat, command: string)
    ensures ParsePeriod(JobLine(t, command)) == Some(t)
  {
    var line := JobLine(t, command);
    var digits := NatToString(t);
    var rest := "* * * * " + command + " " + Marker + "\n";
    assert line == "*/" + (digits + " " + rest);
    assert line[2..] == digits + " " + rest;
    DigitRunStopsAtSpace(digits, rest);
    ParseNatToString(t);
  }

  lemma {:induction false} UnmarkedConcat(a: seq<string>, b: seq<string>)
    ensures Unmarked(a + b) == Unmarked(a) + Unmarked(b)
    ensures CountMarked(a + b) == CountMarked(a) + CountMarked(b)
    decreases |a|
  {
    if a == [] {
      assert a + b == b;
    } else {
      assert (a + b)[1..] == a[1..] + b;
      UnmarkedConcat(a[1..], b);
    }
  }

  /** A table has no marked line exactly when its count is zero; then it is all foreign. */
  lemma {:induction false} NoJobClean(jobs: seq<string>)
    ensures !HasJob(jobs) <==> CountMarked(jobs) == 0
    ensures !HasJob(jobs) ==> Unmarked(jobs) == jobs
    decreases |jobs|
  {
    if jobs != [] {
      NoJobClean(jobs[1..]);
      if HasJob(jobs[1..]) {
        var j :| 0 <= j < |jobs[1..]| && IsMarked(jobs[1..][j]);
        assert IsMarked(jobs[j + 1]);
      }
      if HasJob(jobs) && !IsMarked(jobs[0]) {
        var j :| 0 <= j < |jobs| && IsMarked(jobs[j]);
        assert IsMarked(jobs[1..][j - 1]);
      }
    }
  }

  /** The foreign lines contain no marked line. */
  lemma {:induction false} UnmarkedIsClean(jobs: seq<string>)
    ensures CountMarked(Unmarked(jobs)) == 0
    decreases |jobs|
  {
    if jobs != [] {
      var head := if IsMarked(jobs[0]) then [] else [jobs[0]];
      UnmarkedIsClean(jobs[1..]);
      UnmarkedConcat(head, Unmarked(jobs[1..]));
    }
  }

  /** Removing one copy of a marked line keeps the foreign lines and drops one marked line. */
  lemma {:induction false} RemoveFirstMarked(jobs: seq<string>, x: string)
    requires x in jobs && IsMarked(x)
    ensures Unmarked(RemoveFirst(jobs, x)) == Unmarked(jobs)
    ensures CountMarked(RemoveFirst(jobs, x)) == CountMarked(jobs) - 1
    decreases |jobs|
  {
    if jobs[0] != x {
      RemoveFirstMarked(jobs[1..], x);
      var r := [jobs[0]] + RemoveFirst(jobs[1..], x);
      assert r[1..] == RemoveFirst(jobs[1..], x);
    }
  }

  /** When no earlier line equals the line at `p`, `list.remove` drops exactly position `p`. */
  lemma {:induction false} RemoveFirstAt(jobs: seq<string>, p: nat)
    requires p < |jobs| && jobs[p] !in jobs[..p]
    ensures RemoveFirst(jobs, jobs[p]) == jobs[..p] + jobs[p + 1..]
    decreases p
  {
    if p > 0 {
      assert jobs[0] in jobs[..p];
      assert jobs[1..][..p - 1] == jobs[..p][1..];
      RemoveFirstAt(jobs[1..], p - 1);
      assert jobs[..p] == [jobs[0]] + jobs[1..][..p - 1];
    }
  }

  // Lemmas about `remove_job` as written

  /** Whatever the table, the as-written removal keeps every foreign line, in order. */
  lemma {:induction false} SweepKeepsForeign(jobs: seq<string>, i: nat)
    ensures Unmarked(SweepFrom(jobs, i)) == Unmarked(jobs)
    decreases |jobs| - i
  {
    if i < |jobs| {
      if IsMarked(jobs[i]) {
        RemoveFirstMarked(jobs, jobs[i]);
        SweepKeepsForeign(RemoveFirst(jobs, jobs[i]), i + 1);
      } else {
        SweepKeepsForeign(jobs, i + 1);
      }
    }
  }

  /** On a table with no marked line the removal changes nothing. */
  lemma {:induction false} SweepNoJob(jobs: seq<string>, i: nat)
    requires !HasJob(jobs)
    ensures SweepFrom(jobs, i) == jobs
    decreases |jobs| - i
  {
    if i < |jobs| {
      SweepNoJob(jobs, i + 1);
    }
  }

  /**
   * On a table with at most one marked line, and none before position `i`,
   * the removal leaves exactly the foreign lines.
   */
  lemma {:induction false} SweepAtMostOne(jobs: seq<string>, i: nat)
    requires CountMarked(jobs) <= 1
    requires forall j :: 0 <= j < i && j < |jobs| ==> !IsMarked(jobs[j])
    ensures SweepFrom(jobs, i) == Unmarked(jobs)
    decreases |jobs| - i
  {
    if i >= |jobs| {
      NoJobClean(jobs);
      SweepNoJob(jobs, i);
    } else if !IsMarked(jobs[i]) {
      SweepAtMostOne(jobs, i + 1);
    } else {
      assert jobs[i] !in jobs[..i] by {
        forall j | 0 <= j < i ensures jobs[..i][j] != jobs[i] {
          assert !IsMarked(jobs[j]);
        }
      }
      var rest := RemoveFirst(jobs, jobs[i]);
      RemoveFirstAt(jobs, i);
      RemoveFirstMarked(jobs, jobs[i]);
      NoJobClean(rest);
      SweepNoJob(rest, i + 1);
    }
  }

  /**
   * `remove_job` on a table with no marked line is a no-op, and on one
   * with exactly one marked line it drops that line and keeps the others
   * in order; in every case the foreign lines are kept.
   */
  lemma RemoveJobSpec(jobs: seq<string>)
    ensures Unmarked(RemoveJobResult(jobs)) == Unmarked(jobs)
    ensures !HasJob(jobs) ==> RemoveJobResult(jobs) == jobs
    ensures CountMarked(jobs) <= 1 ==> RemoveJobResult(jobs) == Unmarked(jobs)
    ensures CountMarked(jobs) <= 1 ==> !HasJob(RemoveJobResult(jobs))
  {
    SweepKeepsForeign(jobs, 0);
    if !HasJob(jobs) {
      SweepNoJob(jobs, 0);
    }
    if CountMarked(jobs) <= 1 {
      SweepAtMostOne(jobs, 0);
      UnmarkedIsClean(jobs);
      NoJobClean(Unmarked(jobs));
    }
  }

  /**
   * The as-written removal skips a marked line that directly follows a
   * removed one: of two adjacent marked lines, equal or not, only the
   * first goes, and the table still holds a marked line.
   */
  lemma RemoveJobSkipsAdjacent(a: string, b: string)
    requires IsMarked(a) && IsMarked(b)
    ensures RemoveJobResult([a, b]) == [b]
    ensures HasJob(RemoveJobResult([a, b]))
  {
    assert RemoveFirst([a, b], a) == [b];
    assert SweepFrom([b], 1) == [b];
    assert IsMarked([b][0]);
  }

  /** Two distinct job lines of the agent, one after the other, show the skip. */
  lemma RemoveJobSkipsSecondJobLine(command: string)
    ensures RemoveJobResult([JobLine(5, command), JobLine(10, command)]) == [JobLine(10, command)]
    ensures ParsePeriod(RemoveJobResult([JobLine(5, command), JobLine(10, command)])[0]) == Some(10)
  {
    JobLineIsMarked(5, command);
    JobLineIsMarked(10, command);
    JobLinePeriod(5, command);
    JobLinePeriod(10, command);
    RemoveJobSkipsAdjacent(JobLine(5, command), JobLine(10, command));
  }

  // Lemmas about `set_job`

  /** `set_job` on two adjacent marked lines, equal or not, removes only the first. */
  lemma SetJobOnAdjacentPair(a: string, b: string, time: int, command: string)
    requires IsMarked(a) && IsMarked(b)
    ensures SetJobResult([a, b], time, command) == [b, JobLine(ClampPeriod(time), command)]
  {
    assert IsMarked([a, b][0]);
    RemoveJobSkipsAdjacent(a, b);
  }

  /** `set_job` on a marked line followed by one more line removes the marked one. */
  lemma SetJobOnMarkedThenLine(b: string, line: string, time: int, command: string)
    requires IsMarked(b)
    ensures SetJobResult([b, line], time, command) == [line, JobLine(ClampPeriod(time), command)]
  {
    var jobs := [b, line];
    assert IsMarked(jobs[0]);
    assert RemoveFirst(jobs, jobs[0]) == [line];
    assert SweepFrom([line], 1) == [line];
    assert RemoveJobResult(jobs) == [line];
  }

  /**
   * After the skip, a stale job line survives `set_job`: from two adjacent
   * marked lines, equal or not, installing twice leaves two job lines.
   */
  lemma SetJobTwiceKeepsStaleLine(a: string, b: string, time1: int, time2: int, command: string)
    requires IsMarked(a) && IsMarked(b)
    ensures SetJobResult(SetJobResult([a, b], time1, command), time2, command) ==
              [JobLine(ClampPeriod(time1), command), JobLine(ClampPeriod(time2), command)]
    ensures CountMarked(SetJobResult(SetJobResult([a, b], time1, command), time2, command)) == 2
  {
    var line1 := JobLine(ClampPeriod(time1), command);
    var line2 := JobLine(ClampPeriod(time2), command);
    SetJobOnAdjacentPair(a, b, time1, command);
    SetJobOnMarkedThenLine(b, line1, time2, command);
    JobLineIsMarked(ClampPeriod(time1), command);
    JobLineIsMarked(ClampPeriod(time2), command);
    CountMarkedPair(line1, line2);
  }

  lemma CountMarkedPair(x: string, y: string)
    requires IsMarked(x) && IsMarked(y)
    ensures CountMarked([x, y]) == 2
  {
    AppendMarked([], x);
    AppendMarked([x], y);
    assert [] + [x] == [x] && [x] + [y] == [x, y];
  }

  /**
   * `set_job` keeps every foreign line, in order, and ends with the job
   * line for the clamped period; from a table with at most one marked
   * line, the result is exactly the foreign lines plus that one line.
   */
  lemma SetJobSpec(jobs: seq<string>, time: int, command: string)
    ensures Unmarked(SetJobResult(jobs, time, command)) == Unmarked(jobs)
    ensures |SetJobResult(jobs, time, command)| > 0
    ensures SetJobResult(jobs, time, command)[|SetJobResult(jobs, time, command)| - 1] ==
              JobLine(ClampPeriod(time), command)
    ensures CountMarked(jobs) <= 1 ==>
              SetJobResult(jobs, time, command) == Unmarked(jobs) + [JobLine(ClampPeriod(time), command)] &&
              CountMarked(SetJobResult(jobs, time, command)) == 1
  {
    var line := JobLine(ClampPeriod(time), command);
    var kept := if HasJob(jobs) then RemoveJobResult(jobs) else jobs;
    assert SetJobResult(jobs, time, command) == kept + [line];
    JobLineIsMarked(ClampPeriod(time), command);
    AppendMarked(kept, line);
    RemoveJobSpec(jobs);
    if CountMarked(jobs) <= 1 {
      NoJobClean(jobs);
      UnmarkedIsClean(jobs);
    }
  }

  /** Appending a marked line keeps the foreign lines and adds one marked line. */
  lemma AppendMarked(kept: seq<string>, line: string)
    requires IsMarked(line)
    ensures Unmarked(kept + [line]) == Unmarked(kept)
    ensures CountMarked(kept + [line]) == CountMarked(kept) + 1
  {
    UnmarkedConcat(kept, [line]);
    assert [line][1..] == [];
  }

  /** Installing twice leaves one marked line, with the second period. */
  lemma SetJobTwice(jobs: seq<string>, time1: int, time2: int, command: string)
    requires CountMarked(jobs) <= 1
    ensures SetJobResult(SetJobResult(jobs, time1, command), time2, command) ==
              Unmarked(jobs) + [JobLine(ClampPeriod(time2), command)]
    ensures CountMarked(SetJobResult(SetJobResult(jobs, time1, command), time2, command)) == 1
  {
    var once := SetJobResult(jobs, time1, command);
    SetJobSpec(jobs, time1, command);
    SetJobSpec(once, time2, command);
  }

  /** Installing and then removing gives back the foreign lines. */
  lemma SetJobThenRemove(jobs: seq<string>, time: int, command: string)
    requires CountMarked(jobs) <= 1
    ensures RemoveJobResult(SetJobResult(jobs, time, command)) == Unmarked(jobs)
  {
    var once := SetJobResult(jobs, time, command);
    SetJobSpec(jobs, time, command);
    RemoveJobSpec(once);
  }

  /**
   * The user's crontab as seen by the agent: an ordered list of lines that
   * `remove_job` and `set_job` read, change and write back whole.
   */
  class CronTable {
    var jobs: seq<string>
    const command: string

    constructor (projectPath: string, jobs: seq<string>)
      ensures this.jobs == jobs && command == Command(projectPath)
    {
      this.jobs := jobs;
      command := Command(projectPath);
    }

    /** `_job_exist`: whether some line carries the marker. */
    method JobExists() returns (b: bool)
      ensures b <==> exists j :: 0 <= j < |jobs| && IsMarked(jobs[j])
    {
      var lines := jobs;
      for i := 0 to |lines|
        invariant forall j :: 0 <= j < i ==> !IsMarked(lines[j])
      {
        if Contains(lines[i], Marker) {
          return true;
        }
      }
      return false;
    }

    /** `remove_job`: remove the marked lines the way the source's loop does. */
    method RemoveJob()
      modifies this
      ensures jobs == RemoveJobResult(old(jobs))
      ensures Unmarked(jobs) == Unmarked(old(jobs))
      ensures !HasJob(old(jobs)) ==> jobs == old(jobs)
      ensures CountMarked(old(jobs)) <= 1 ==> jobs == Unmarked(old(jobs))
    {
      var lines := jobs;
      var i := 0;
      while i < |lines|
        invariant SweepFrom(lines, i) == RemoveJobResult(old(jobs))
        decreases |lines| - i
      {
        var job := lines[i];
        if Contains(job, Marker) {
          lines := RemoveFirst(lines, job);
        }
        i := i + 1;
      }
      jobs := lines;
      RemoveJobSpec(old(jobs));
    }

    /** `set_job(time)`: replace the agent's line by one for the clamped period. */
    method SetJob(time: int)
      modifies this
      ensures jobs == SetJobResult(old(jobs), time, command)
      ensures Unmarked(jobs) == Unmarked(old(jobs))
      ensures jobs[|jobs| - 1] == JobLine(ClampPeriod(time), command)
      ensures CountMarked(old(jobs)) <= 1 ==>
                jobs == Unmarked(old(jobs)) + [JobLine(ClampPeriod(time), command)] &&
                CountMarked(jobs) == 1
    {
      var t := ClampPeriod(time);
      var found := JobExists();
      if found {
        RemoveJob();
      }
      jobs := jobs + [JobLine(t, command)];
      SetJobSpec(old(jobs), time, command);
    }
  }
}

=== FILE: events.dfy ===
/**
 * The event store and the state transition engine: each `check` run
 * compares a fresh connectivity observation with the last recorded event
 * and either does nothing (the state is unchanged) or appends one event,
 * linking a recovery to the outage event it ends.
 */
module Events {
  import opened Wrappers

  /** One recorded connectivity sample; `prevEvent` is set only on a recovery. */
  datatype Event = Event(date: string, time: string, state: bool, prevEvent: Option<Event>)

  /** One probe run: the observed connectivity and the date and time it was taken. */
  datatype Sample = Sample(observed: bool, date: string, time: string)

  /** The persisted data file: the event log and a copy of its last event. */
  datatype Snapshot = Snapshot(events: seq<Event>, lastEvent: Event)

  /** What a run did, in place of the source's early `exit(0)`. */
  datatype Status = NoOp | Applied

  /** The event the bootstrap records: the observation at install time, with no link. */
  function SeedEvent(probe: Sample): (e: Event)
    ensures e.state == probe.observed && e.prevEvent == None
    ensures e.date == probe.date && e.time == probe.time
  {
    Event(probe.date, probe.time, probe.observed, None)
  }

  function SeedSnapshot(probe: Sample): Snapshot
  {
    Snapshot([SeedEvent(probe)], SeedEvent(probe))
  }

  /** The store invariant: the log is non-empty and `lastEvent` is its last element. */
  ghost predicate Consistent(s: Snapshot)
  {
    |s.events| > 0 && s.lastEvent == s.events[|s.events| - 1]
  }

  /**
   * The recovery-link invariant of a log: the first event carries no link,
   * consecutive events differ in state, and an event carries a link exactly
   * when the event before it is an outage, which it then embeds.
   */
  ghost predicate WellLinked(events: seq<Event>)
  {
    (|events| > 0 ==> events[0].prevEvent == None) &&
    forall i :: 0 < i < |events| ==>
      events[i].state != events[i - 1].state &&
      (events[i].prevEvent.Some? <==> !events[i - 1].state) &&
      (events[i].prevEvent.Some? ==> events[i].prevEvent.value == events[i - 1])
  }

  /**
   * The decision of one `check` run: None when the observation equals the
   * last recorded state (debounce), otherwise the new event, which links
   * back to `last` exactly when `last` recorded an outage.
   */
  function Transition(last: Event, probe: Sample): (r: Option<Event>)
    ensures r.None? <==> probe.observed == last.state
    ensures r.Some? ==> r.value.state == probe.observed
    ensures r.Some? ==> r.value.date == probe.date && r.value.time == probe.time
    ensures r.Some? ==> (r.value.prevEvent.Some? <==> !last.state)
    ensures r.Some? && r.value.prevEvent.Some? ==>
              r.value.prevEvent.value == last && r.value.state && !last.state
  {
    if last.state == probe.observed then None
    else if !last.state then Some(Event(probe.date, probe.time, probe.observed, Some(last)))
    else Some(Event(probe.date, probe.time, probe.observed, None))
  }

  /** The store after one `check` run. */
  function Apply(s: Snapshot, probe: Sample): (r: Snapshot)
    ensures r.lastEvent.state == probe.observed
    ensures r == s || r.events == s.events + [r.lastEvent]
  {
    match Transition(s.lastEvent, probe)
    case None => s
    case Some(e) => Snapshot(s.events + [e], e)
  }

  /** The store after a sequence of `check` runs, in order. */
  function Replay(s: Snapshot, probes: seq<Sample>): (r: Snapshot)
    ensures |s.events| <= |r.events| && r.events[..|s.events|] == s.events
    ensures probes != [] ==> r.lastEvent.state == probes[|probes| - 1].observed
    decreases |probes|
  {
    if probes == [] then s
    else
      var s' := Apply(s, probes[0]);
      var r := Replay(s', probes[1..]);
      assert r.events[..|s.events|] == r.events[..|s'.events|][..|s.events|];
      assert |probes| > 1 ==> probes[1..][|probes[1..]| - 1] == probes[|probes| - 1];
      r
  }

  /** The number of times the observed value changes, starting from `state`. */
  function Changes(state: bool, probes: seq<Sample>): nat
    decreases |probes|
  {
    if probes == [] then 0
    else if probes[0].observed == state then Changes(state, probes[1..])
    else 1 + Changes(probes[0].observed, probes[1..])
  }

  /** The bootstrap store satisfies both invariants. */
  lemma SeedInvariants(probe: Sample)
    ensures Consistent(SeedSnapshot(probe)) && WellLinked(SeedSnapshot(probe).events)
    ensures SeedSnapshot(probe).lastEvent.state == probe.observed
  {
  }

  /**
   * One `check` run either leaves the store unchanged (same state) or
   * appends exactly one event, leaving the earlier ones untouched; both
   * invariants are kept.
   */
  lemma ApplyKeepsInvariants(s: Snapshot, probe: Sample)
    requires Consistent(s) && WellLinked(s.events)
    ensures Consistent(Apply(s, probe)) && WellLinked(Apply(s, probe).events)
    ensures probe.observed == s.lastEvent.state ==> Apply(s, probe) == s
    ensures probe.observed != s.lastEvent.state ==>
              |Apply(s, probe).events| == |s.events| + 1 &&
              Apply(s, probe).events[..|s.events|] == s.events &&
              Apply(s, probe).lastEvent.state == probe.observed
  {
  }

  /**
   * Running `check` over any sequence of observations keeps both
   * invariants, only appends to the log, and leaves as last state the last
   * observation.
   */
  lemma {:induction false} ReplayKeepsInvariants(s: Snapshot, probes: seq<Sample>)
    requires Consistent(s) && WellLinked(s.events)
    ensures Consistent(Replay(s, probes)) && WellLinked(Replay(s, probes).events)
    ensures |s.events| <= |Replay(s, probes).events|
    ensures Replay(s, probes).events[..|s.events|] == s.events
    ensures Replay(s, probes).lastEvent.state ==
              if probes == [] then s.lastEvent.state else probes[|probes| - 1].observed
    decreases |probes|
  {
    if probes != [] {
      var s' := Apply(s, probes[0]);
      ApplyKeepsInvariants(s, probes[0]);
      ReplayKeepsInvariants(s', probes[1..]);
      var r := Replay(s', probes[1..]);
      assert r.events[..|s.events|] == r.events[..|s'.events|][..|s.events|];
      if |probes| > 1 {
        assert probes[1..][|probes[1..]| - 1] == probes[|probes| - 1];
      }
    }
  }

  /**
   * Debounce: the log grows by exactly the number of changes of the
   * observed value, however many repeated observations come in between.
   */
  lemma {:induction false} ReplayLength(s: Snapshot, probes: seq<Sample>)
    ensures |Replay(s, probes).events| == |s.events| + Changes(s.lastEvent.state, probes)
    decreases |probes|
  {
    if probes != [] {
      ReplayLength(Apply(s, probes[0]), probes[1..]);
    }
  }

  /**
   * From the bootstrap, the log after any sequence of `check` runs starts
   * with the seed event, has one more event than the observed value has
   * changes, and satisfies both invariants.
   */
  lemma LogFromSeed(seed: Sample, probes: seq<Sample>)
    ensures Consistent(Replay(SeedSnapshot(seed), probes))
    ensures WellLinked(Replay(SeedSnapshot(seed), probes).events)
    ensures Replay(SeedSnapshot(seed), probes).events[0] == SeedEvent(seed)
    ensures |Replay(SeedSnapshot(seed), probes).events| == 1 + Changes(seed.observed, probes)
  {
    SeedInvariants(seed);
    ReplayKeepsInvariants(SeedSnapshot(seed), probes);
    ReplayLength(SeedSnapshot(seed), probes);
    var r := Replay(SeedSnapshot(seed), probes);
    assert r.events[..1][0] == r.events[0];
  }

  /**
   * In a well-linked log every linked event is a recovery whose link is
   * the outage event recorded just before it, and outage events carry no
   * link.
   */
  lemma RecoveryLinks(events: seq<Event>, i: int)
    requires WellLinked(events) && 0 <= i < |events|
    ensures !events[i].state ==> events[i].prevEvent == None
    ensures events[i].prevEvent.Some? ==>
              0 < i && events[i].state && events[i].prevEvent == Some(events[i - 1]) &&
              !events[i].prevEvent.value.state
    ensures 0 < i && events[i].state ==> events[i].prevEvent == Some(events[i - 1])
  {
    if i > 0 && !events[i].state {
      assert events[i - 1].state;
    }
  }

  /**
   * The end-to-end run: bootstrap while up, then observations up, up,
   * down, down, up, gives three events, the last linking to the outage.
   */
  lemma EndToEnd()
    ensures
      var p0 := Sample(true, "2024-01-01", "10:00:00");
      var p1 := Sample(true, "2024-01-01", "10:05:00");
      var p2 := Sample(true, "2024-01-01", "10:10:00");
      var p3 := Sample(false, "2024-01-01", "10:15:00");
      var p4 := Sample(false, "2024-01-01", "10:20:00");
      var p5 := Sample(true, "2024-01-01", "10:25:00");
      var down := Event("2024-01-01", "10:15:00", false, None);
      Replay(SeedSnapshot(p0), [p1, p2, p3, p4, p5]).events ==
        [SeedEvent(p0), down, Event("2024-01-01", "10:25:00", true, Some(down))]
  {
    var p0 := Sample(true, "2024-01-01", "10:00:00");
    var p1 := Sample(true, "2024-01-01", "10:05:00");
    var p2 := Sample(true, "2024-01-01", "10:10:00");
    var p3 := Sample(false, "2024-01-01", "10:15:00");
    var p4 := Sample(false, "2024-01-01", "10:20:00");
    var p5 := Sample(true, "2024-01-01", "10:25:00");
    var down := Event("2024-01-01", "10:15:00", false, None);
    var up := Event("2024-01-01", "10:25:00", true, Some(down));
    var s0 := SeedSnapshot(p0);
    var s3 := Snapshot([SeedEvent(p0), down], down);
    var s5 := Snapshot([SeedEvent(p0), down, up], up);
    assert Apply(s0, p1) == s0 && Apply(s0, p2) == s0;
    assert Apply(s0, p3) == s3 && Apply(s3, p4) == s3 && Apply(s3, p5) == s5;
    assert Replay(s5, []) == s5;
    assert Replay(s3, [p5]) == s5;
    assert Replay(s3, [p4, p5]) == s5 by { assert [p4, p5][1..] == [p5]; }
    assert Replay(s0, [p3, p4, p5]) == s5 by { assert [p3, p4, p5][1..] == [p4, p5]; }
    assert Replay(s0, [p2, p3, p4, p5]) == s5 by { assert [p2, p3, p4, p5][1..] == [p3, p4, p5]; }
    assert [p1, p2, p3, p4, p5][1..] == [p2, p3, p4, p5];
  }

  /**
   * The persisted store as an object: the `check` run appends to `events`
   * and reassigns `lastEvent` in place.
   */
  class EventStore {
    var events: seq<Event>
    var lastEvent: Event

    function Contents(): Snapshot
      reads this
    {
      Snapshot(events, lastEvent)
    }

    ghost predicate Valid()
      reads this
    {
      Consistent(Contents()) && WellLinked(events)
    }

    /** The seed part of bootstrap: one event, both first in the log and last. */
    constructor Seed(probe: Sample)
      ensures Valid()
      ensures Contents() == SeedSnapshot(probe)
      ensures |events| == 1 && events[0] == lastEvent && lastEvent.state == probe.observed
    {
      events := [SeedEvent(probe)];
      lastEvent := SeedEvent(probe);
    }

    /**
     * One `check` run with observation `probe`: NoOp when it equals the
     * last recorded state, otherwise one new event appended and made last.
     */
    method Check(probe: Sample) returns (status: Status)
      modifies this
      ensures Contents() == Apply(old(Contents()), probe)
      ensures status == NoOp <==> probe.observed == old(lastEvent.state)
      ensures status == NoOp ==> events == old(events) && lastEvent == old(lastEvent)
      ensures status == Applied ==>
                events == old(events) + [lastEvent] && lastEvent.state == probe.observed &&
                (lastEvent.prevEvent.Some? <==> !old(lastEvent.state)) &&
                (lastEvent.prevEvent.Some? ==> lastEvent.prevEvent.value == old(lastEvent))
      ensures old(Valid()) ==> Valid()
    {
      ghost var before := Contents();
      if lastEvent.state == probe.observed {
        return NoOp;
      }
      var event := Event(probe.date, probe.time, probe.observed, None);
      if !lastEvent.state {
        event := event.(prevEvent := Some(lastEvent));
      }
      events := events + [event];
      lastEvent := event;
      status := Applied;
      if Consistent(before) && WellLinked(before.events) {
        ApplyKeepsInvariants(before, probe);
      }
    }
  }
}

=== FILE: text.dfy ===
/**
 * The few Python string built-ins the agent relies on: substring
 * containment (`sub in s`), decimal rendering of a non-negative integer
 * (`str(n)`) and `sep.join(parts)`, each with a reference definition.
 */
module Text {

  /** `sub` occurs in `s` starting at index `i`. */
  predicate OccursAt(s: string, sub: string, i: int)
  {
    0 <= i && i + |sub| <= |s| && s[i..i + |sub|] == sub
  }

  /** An occurrence in `s[1..]` is an occurrence in `s` one place later. */
  lemma OccursInTail(s: string, sub: string)
    requires |s| > 0
    ensures forall j :: 0 <= j ==> (OccursAt(s[1..], sub, j) <==> OccursAt(s, sub, j + 1))
  {
  }

  /** Python's `sub in s` on strings: `sub` occurs somewhere in `s`. */
  function Contains(s: string, sub: string): (b: bool)
    ensures b <==> exists i :: OccursAt(s, sub, i)
    decreases |s|
  {
    if |s| < |sub| then false
    else if s[..|sub|] == sub then assert OccursAt(s, sub, 0); true
    else
      OccursInTail(s, sub);
      assert !OccursAt(s, sub, 0);
      assert forall i :: OccursAt(s, sub, i) ==> OccursAt(s[1..], sub, i - 1);
      Contains(s[1..], sub)
  }

  predicate IsDigit(c: char)
  {
    '0' <= c <= '9'
  }

  predicate AllDigits(s: string)
  {
    forall k :: 0 <= k < |s| ==> IsDigit(s[k])
  }

  function DigitChar(d: nat): (c: char)
    requires d < 10
    ensures IsDigit(c)
  {
    ('0' as int + d) as char
  }

  function DigitValue(c: char): (d: nat)
    requires IsDigit(c)
    ensures d < 10
  {
    c as int - '0' as int
  }

  /** Python's `str(n)` for a non-negative int: its decimal digits, no leading zero. */
  function NatToString(n: nat): (s: string)
    ensures |s| > 0 && AllDigits(s)
    ensures |s| > 1 ==> s[0] != '0'
    decreases n
  {
    if n < 10 then [DigitChar(n)]
    else NatToString(n / 10) + [DigitChar(n % 10)]
  }

  /** The value of a string of decimal digits (Python's `int(s)` on such a string). */
  function ParseDigits(s: string): nat
    requires AllDigits(s)
    decreases |s|
  {
    if s == [] then 0
    else 10 * ParseDigits(s[..|s| - 1]) + DigitValue(s[|s| - 1])
  }

  /** Reading back the rendering of `n` gives `n`. */
  lemma {:induction false} ParseNatToString(n: nat)
    ensures ParseDigits(NatToString(n)) == n
  {
    if n >= 10 {
      var s := NatToString(n / 10);
      ParseNatToString(n / 10);
      assert (s + [DigitChar(n % 10)])[..|s|] == s;
    }
  }

  /** Python's `sep.join(parts)`. */
  function Join(sep: string, parts: seq<string>): (r: string)
    ensures |parts| == 0 ==> r == ""
    ensures |parts| > 0 ==> |r| == SumLengths(parts) + (|parts| - 1) * |sep|
    decreases |parts|
  {
    if |parts| == 0 then ""
    else if |parts| == 1 then parts[0]
    else parts[0] + sep + Join(sep, parts[1..])
  }

  /** Joining one more part appends the separator and that part. */
  lemma {:induction false} JoinSnoc(sep: string, parts: seq<string>, p: string)
    ensures Join(sep, parts + [p]) == if parts == [] then p else Join(sep, parts) + sep + p
    decreases |parts|
  {
    if |parts| == 0 {
      assert parts + [p] == [p];
    } else if |parts| == 1 {
      assert (parts + [p])[1..] == [p];
    } else {
      assert (parts + [p])[1..] == parts[1..] + [p];
      JoinSnoc(sep, parts[1..], p);
    }
  }

  function SumLengths(parts: seq<string>): nat
    decreases |parts|
  {
    if parts == [] then 0 else |parts[0]| + SumLengths(parts[1..])
  }
}

=== FILE: wrappers.dfy ===
/** The optional value used for Python's `None`-or-value results. */
module Wrappers {

  datatype Option<+T> = None | Some(value: T)
}
